=== FILE: README.md ===
# pytrilium core, modelled in Dafny

pytrilium is a Python client for the ETAPI HTTP interface of the Trilium
note-taking server. This project models its core:

- **Base client.** Modelled from `pytrilium/PyTriliumClient.py`:
  - base-URL cleaning
  - the request dispatcher, with its status-code allow-list and warning
  - the start-up liveness probe
- **Note operations.** Modelled from `pytrilium/PyTriliumNoteClient.py`:
  - the request each note operation sends
  - the export operation, with its target-path normalisation and its "every
    failure becomes `False`" contract
- **Composed client.** Modelled from `pytrilium/PyTrilium.py`:
  - how construction picks the credential: a token wins, and a password is
    exchanged for a token at `/auth/login`
  - the order of the requests it sends
  - the name filter of `print_custom_functions`
- **Release script.** Modelled from `scripts/bump_version.py`:
  - version-format validation
  - reading the current version out of `pyproject.toml`
  - the literal rewrite of the two version sites
  - the git-tag step
  - the control flow of `main`

Everything external is a parameter or plain data:

- The HTTP transport is a function from request to reply, `Client.Server`.
  A reply either carries a response or stands for a raised exception.
- The file system is a map from path to content. A missing key is a missing
  file.
- git is an oracle. It gives the `git tag -l` output and says whether tagging
  and pushing succeed.
- Writability of the export target is a predicate.
- `set_session_auth` is a function from session and credential to session.
  `PyTrilium.__init__` calls it at `pytrilium/PyTrilium.py:29`, but no file
  of the package defines it, in `PyTrilium` or in any of its base classes.
  As written, that call would raise AttributeError for every construction
  that gets that far. The model takes it as the intended effect of
  installing the credential.

The modules follow the program's structure:

| file | module | contents |
|---|---|---|
| `basics.dfy` | `Basics` | `Option`, `Result`, Python truthiness of an optional string |
| `text.dfy` | `Text` | `in`, `endswith`, literal left-to-right non-overlapping replace-all (what `re.sub` does with an escaped pattern) |
| `client.dfy` | `Client` | `PyTriliumClient` |
| `note_client.dfy` | `NoteClient` | `PyTriliumNoteClient` |
| `trilium.dfy` | `Trilium` | `PyTrilium` |
| `bump_version.dfy` | `BumpVersion` | `scripts/bump_version.py` |

Where the library's documentation and the code disagree, the model
follows the code:

- **Invalid URL.** A URL without "http" is meant to fail with a ValueError
  carrying the attempted URL. The code raises AttributeError instead.
  `Client.InitClientAsWritten` models the code. The corrected
  `Client.InitClient` is what `Trilium.Connect` is built on; see Findings.
- **What counts as "http".** `clean_url` accepts any URL that contains
  "http" anywhere. It appends "/etapi" as it is, so a trailing slash gives
  "…//etapi".
- **User-Agent.** The release script's `pytrilium/<version>` pattern is
  lower-case. The client sends the User-Agent "PyTriliumClient/0.0.1", so that
  site is never rewritten (`BumpVersion.UserAgentNeverBumped`).
- **Version format.** The check uses `$`, which also accepts one final
  newline. The model accepts it too.

## Model

| member | source | states |
|---|---|---|
| Text.Contains | pytrilium/PyTriliumClient.py:102-104 | Python's substring test `p in s` holds exactly when `p` occurs at some index of `s` |
| Text.ReplaceAllChangesIff | scripts/bump_version.py:40-46 | replacing a literal pattern by a different string changes the text if and only if the pattern occurs in it |
| Text.ReplaceAll | scripts/bump_version.py:40-44 | the literal `re.sub`: every non-overlapping occurrence, leftmost first, is replaced; replacing a pattern by itself leaves the text unchanged (the rest of its meaning is in the three lemmas below) |
| Text.ReplaceAllAtFirst | scripts/bump_version.py:40-44 | the substitution copies the text up to the leftmost occurrence unchanged, rewrites that occurrence, and continues after it |
| Text.ReplaceAllLength | scripts/bump_version.py:40-44 | each rewritten occurrence changes the length by the difference of the two lengths |
| Client.CleanUrl | pytrilium/PyTriliumClient.py:102-109 | a URL is accepted iff it contains "http". The original URL is a prefix of the cleaned one, and the cleaned one always contains "/etapi". "/etapi" is appended only when it was absent; otherwise the URL is kept as given |
| Client.AppendEtapiKeepsHttp | pytrilium/PyTriliumClient.py:102-104 | appending "/etapi" before the scheme test neither creates nor removes an occurrence of "http", so the test effectively judges the URL as given |
| Client.CleanUrlIdempotent | pytrilium/PyTriliumClient.py:102-109 | cleaning an already cleaned URL gives the same URL |
| Client.InitClientAsWritten | pytrilium/PyTriliumClient.py:27-32 | as written, construction fails iff the URL has no "http", and the failure is an AttributeError about `url` |
| Client.AsWrittenRaisesAttributeError | pytrilium/PyTriliumClient.py:28-32 | "trilium.local:8080" is rejected by `clean_url`, and the constructor as written then raises AttributeError, not ValueError |
| Client.InitClient | pytrilium/PyTriliumClient.py:27-32 | corrected constructor: fails iff the URL has no "http", with an invalid-URL error carrying the attempted input. On success it stores the cleaned URL and the token unchanged |
| Client.MakeRequest | pytrilium/PyTriliumClient.py:80-86 | the request URL is exactly base URL followed by endpoint. Method, body, parameters and session headers are passed through. The transport's reply is returned whatever its status. A warning is logged iff the answer's status is outside 200/201/202/204 |
| Client.AttemptBasicCall | pytrilium/PyTriliumClient.py:111-117 | the probe is a GET of "/app-info". It passes iff the answer's status is in the allow-list. A disallowed status raises with that status, the body text and the allow-list; a transport exception propagates |
| Client.RetriedStatusIsWarned | pytrilium/PyTriliumClient.py:43-52 | any 502/503/504 answer (the retried codes) that reaches `make_request` is logged as a possibly invalid response |
| NoteClient.NoteCall | pytrilium/PyTriliumNoteClient.py:9-145 | the path is "/notes/", the id and the operation's sub-resource ("", "/content", "/export", "/note-revision"). Reads and export use GET, put content PUT, patch PATCH, delete DELETE and revision POST, each verb for that operation only. Put, patch and revision send the given content as the body, the others the empty default. Export and revision send exactly the `format` parameter, the others none |
| NoteClient.ParseNoteCall | pytrilium/PyTriliumNoteClient.py:9-145 | for an id without '/', the id and the sub-resource ("", "/content", "/export", "/note-revision") can be read back from the path |
| NoteClient.NoteCallInjective | pytrilium/PyTriliumNoteClient.py:9-145 | distinct operations on ids without '/' send distinct requests |
| NoteClient.SlashInIdAliases | pytrilium/PyTriliumNoteClient.py:22-37 | ids are not escaped: getting note "abc/content" sends the same request as getting the content of note "abc" |
| NoteClient.ExportPath | pytrilium/PyTriliumNoteClient.py:106-113 | the target always ends in ".zip" and extends the given path. A directory path gets "pytrilium_export_<id>.zip" appended; a ".zip" path is kept; any other path gets ".zip" appended |
| NoteClient.ExportPathIdempotent | pytrilium/PyTriliumNoteClient.py:106-113 | normalising an already normalised target changes nothing, whatever note id is used the second time |
| NoteClient.Export | pytrilium/PyTriliumNoteClient.py:115-124 | the export is a GET of "/notes/<id>/export" with the format parameter. It returns true iff the request did not raise and the normalised target could be written, and then exactly the response body was written to that target |
| NoteClient.ExportSucceedsDespiteBadStatus | pytrilium/PyTriliumNoteClient.py:115-124 | a status outside the allow-list only warns: the archive is still written and the export reports success |
| Trilium.AuthLogin | pytrilium/PyTrilium.py:48-52 | the login POSTs the password as the form field "password" to "/auth/login". It yields a token iff the reply is JSON holding "authToken", and the token is that field's value |
| Trilium.Connect | pytrilium/PyTrilium.py:18-32 | a rejected URL fails with no request sent; no credential at all fails with no request sent. A token alone is installed as it is and only the probe is sent. With a password the login is the first request: its failure aborts with nothing installed, and its success installs the given token if any, else the login's token. Once a credential is installed the probe, carrying the session `set_session_auth` produced, is the last request and alone decides: construction succeeds iff its status is allowed, and then stores the cleaned URL, the credential and that session; otherwise it fails with the probe's error |
| Trilium.FailedLoginAbortsDespiteToken | pytrilium/PyTrilium.py:25-28 | with both credentials the login still runs first, so a failing login aborts construction even though a token was given |
| Trilium.CustomFunctions | pytrilium/PyTrilium.py:68-76 | a name is listed iff it is among the given names, contains neither "__" nor "logger", and is not "url", "token" or "session". The listed names keep their order. All names are listed iff every name passes |
| BumpVersion.ValidVersionAccepts | scripts/bump_version.py:108-111 | every `a.b.c` of non-empty digit runs passes the format check, with or without one final newline |
| BumpVersion.ValidVersionShape | scripts/bump_version.py:108-111 | every version passing the check is three non-empty digit runs joined by dots, perhaps followed by one newline |
| BumpVersion.ValidVersion | scripts/bump_version.py:108-111 | the format check `^\d+\.\d+\.\d+$` (with `$` also before one final newline); any version it accepts is non-empty and holds no quote and no backslash |
| BumpVersion.VersionFormatAccepts | scripts/bump_version.py:108 | "1.3.2" passes the check |
| BumpVersion.VersionFormatAcceptsNewline | scripts/bump_version.py:108 | through `$`, "10.0.7\n" passes the check |
| BumpVersion.VersionFormatRejectsShort | scripts/bump_version.py:108 | "1.3" fails the check |
| BumpVersion.VersionFormatRejectsPrefix | scripts/bump_version.py:108 | "v1.3.2" fails the check |
| BumpVersion.MatchAt | scripts/bump_version.py:22 | returns the group when `version = "([^"]+)"` matches at the position, and nothing exactly when no group matches there |
| BumpVersion.MatchUnique | scripts/bump_version.py:22 | at a given position the group of a match is unique |
| BumpVersion.FindVersionFrom | scripts/bump_version.py:22-23 | the search finds a match at or after the start position with none before it, or reports that there is none |
| BumpVersion.FindVersion | scripts/bump_version.py:22-23 | the search returns the leftmost match, or nothing when no position matches |
| BumpVersion.FindVersionIsLeftmost | scripts/bump_version.py:22-27 | a match with no match before it is the one the search returns |
| BumpVersion.GetCurrentVersion | scripts/bump_version.py:14-27 | a missing pyproject.toml stops the script. So does a file with no match anywhere. Otherwise the version read is the group of the leftmost match of `version = "([^"]+)"`: non-empty, quote-free, with no match starting before it |
| BumpVersion.UpdateVersionInFile | scripts/bump_version.py:30-52 | A missing file is skipped. Other files and the set of paths never change. The result is true iff the file's content changed, and the new content is the literal leftmost-first replacement. With distinct versions, it changes iff the pattern with the old version occurs in the file. |
| BumpVersion.RewriteChangesIff | scripts/bump_version.py:40-46 | with distinct versions, the rewrite changes a text iff the pattern filled in with the old version occurs in it |
| BumpVersion.UpdateAllVersions | scripts/bump_version.py:55-67 | pyproject.toml is tried first, then the client module. The returned list names exactly the files whose content changed, in that order. Each is listed iff it exists and contains its pattern with the old version, and a listed file's new content is the literal replacement of its pattern with the old version by the pattern with the new one |
| BumpVersion.UserAgentLacksSite | pytrilium/PyTriliumClient.py:48 | the User-Agent "PyTriliumClient/0.0.1" does not contain the script's lower-case "pytrilium/" |
| BumpVersion.UserAgentNeverBumped | scripts/bump_version.py:63-65 | for any files whose client module nowhere holds "pytrilium/", the client-site pattern with the old version never occurs, and that update leaves every file unchanged and reports no change |
| BumpVersion.RewriteThenRead | scripts/bump_version.py:22-44 | after the pyproject.toml rewrite, reading the current version gives the new version, at the position where the old one was |
| BumpVersion.CreateGitTag | scripts/bump_version.py:70-92 | the commands run are a prefix of: list the tag name, create the annotated tag `v<version>` with message "Release v<version>", push it. A name already in the listing stops after the listing with false. The annotated tag is created iff the name is not listed. It is pushed iff tagging succeeded and a push was asked for. The result is true iff nothing failed |
| BumpVersion.EffectiveArgs | scripts/bump_version.py:104-105 | `--push-tag` implies `--create-tag`, and nothing else changes |
| BumpVersion.Main | scripts/bump_version.py:95-145 | an invalid version exits with InvalidVersion. Otherwise a missing pyproject.toml exits with PyprojectMissing, a pyproject.toml with no `version = "…"` match exits with VersionNotFound, and the same version exits with SameVersion (iff it equals the current one). A valid, different version gives the dry-run preview with the would-tag (`--create-tag` or `--push-tag`) and would-push flags, or else completes the bump from the current version. An exit or preview changes no file, reports no file updated and runs no git. A completed bump leaves exactly the files and the (non-empty) updated list of `update_all_versions(current, new)`, and runs exactly the commands of `create_git_tag(new, push_tag)` when a tag was asked for, and no git otherwise |
| BumpVersion.NothingUpdatedUnreachable | scripts/bump_version.py:134-138 | the "No files were updated" exit can never be taken, because the version just read from pyproject.toml is always there to rewrite |
| BumpVersion.BumpRoundTrip | scripts/bump_version.py:113-138 | a run that is not a dry run, with a valid new version different from the current one and a client module that nowhere holds "pytrilium/", completes the bump from the current version. Only pyproject.toml is reported updated, and reading the current version again gives the new version |

## Left out

- The HTTP transport:
  - Sessions, adapters and the urllib3 retry loop are not modelled. The
    reply oracle stands for the transport after retries.
  - The retry policy (5 retries, backoff factor 1, statuses 502/503/504) is
    kept as constants only.
  - The user agent and the token are modelled as the session's headers.
- Logging (`pytrilium/log.py`): the logger is not modelled. A logged warning
  is the `warned` flag of an exchange.
- `set_session_auth`: no file of the package defines it, so the call at
  `pytrilium/PyTrilium.py:29` would raise AttributeError as written. It is a
  function parameter standing for the intended effect.
- Trilium.Connect: is built on the corrected constructor `Client.InitClient`.
  A URL without "http" therefore fails with the invalid-URL error. As
  written, `PyTrilium.__init__` raises AttributeError there
  (`Client.InitClientAsWritten`; see Findings).
- Read errors in the release script: an existing pyproject.toml or client
  module that cannot be read or decoded raises an uncaught exception
  (PermissionError, UnicodeDecodeError) instead of exiting. Every file in the
  map is readable text.
- File encoding: the file-system map holds decoded text. `read_text` and
  `write_text` use the locale encoding and translate line endings, so for
  example a CRLF pyproject.toml is written back with LF line endings. The
  model's content after an update is the replaced text, not those bytes.
- Response decoding:
  - JSON decoding is not modelled. A response carries its decoded JSON
    object, or none.
  - A non-string `authToken` value is not modelled.
  - The export writes the response body as text in place of the raw
    `response.content` bytes.
- The note reads `get_note_by_id` and `get_note_content_by_id` apply
  `.json()` and `.text` to the response. Only the requests they send are
  modelled.
- `format="html"` defaults: Dafny has no default arguments, so every export
  and revision operation carries its format explicitly. The default value is
  recorded as the constant `NoteClient.DefaultFormat`, which no member uses.
- Export failures:
  - Partial writes and the printed exception are not modelled.
  - Any failure while opening or writing the file is the `canWrite` oracle
    answering false.
- `auth_logout` and `get_inbox_note`: these are single requests with no
  behaviour beyond `Client.MakeRequest`, and they are not part of the
  construction path.
- Other clients:
  - The Branch, Attribute, Attachment and Calendar clients are outside this
    model. The Calendar client's paths lack a leading '/'.
  - `PyTriliumCustomClient` and `pytrilium/__init__.py` are outside this
    model.
  - The top-level `PyTriliumNoteClient.py`, `etapi_client.py` and
    `main_module.py` are outside this model.
- Printing and process handling in the release script:
  - Its printed messages, including the closing reminder to tag by hand,
    are not modelled.
  - argparse is reduced to the `Args` record.
  - `sys.exit(1)` is the `Exited` status.
- The release script runs on one file-system snapshot. Concurrent changes to
  the files are not modelled.
- BumpVersion.CreateGitTag: a missing `git` executable raises
  `FileNotFoundError`, which the script does not catch. This is not
  modelled: only the `CalledProcessError` paths are.
- BumpVersion.ValidVersion: `\d` is modelled as the ASCII digits 0-9. Python
  also accepts other Unicode decimal digits.
- BumpVersion.UpdateVersionInFile: requires a new version without a
  backslash. `re.sub` would interpret escapes in the replacement, and `main`
  only ever passes a validated version, which holds none.
- BumpVersion.UpdateAllVersions: has the same backslash requirement, for the
  same reason.
- BumpVersion.UserAgentNeverBumped: the client module's full text is not
  part of this model. The lemma assumes the text contains no lower-case
  "pytrilium/" anywhere. `BumpVersion.UserAgentLacksSite` shows that for the
  User-Agent string the module defines.
- BumpVersion.BumpRoundTrip: makes the same assumption about the client
  module's text.

## Findings

| source | as written | input that shows it | evidently intended | confidence | as-written member | corrected member |
|---|---|---|---|---|---|---|
| pytrilium/PyTriliumClient.py:28-32 | On a rejected URL, the error message concatenates `self.url`, which `clean_url` assigns only on success, so Python raises AttributeError | url "trilium.local:8080" (no "http") | ValueError naming the attempted URL | high; not executed | Client.InitClientAsWritten, Client.AsWrittenRaisesAttributeError | Client.InitClient |

=== FILE: basics.dfy ===
/** Small failure-carrying datatypes shared by every module of the model.
    Python's `None` / exceptions are represented by `None` / `Failure`. */
module Basics {

  datatype Option<+T> = None | Some(value: T)

  datatype Result<+R, +E> = Success(value: R) | Failure(error: E)

  /** Python truthiness of an optional string argument: `None` and `""` are falsy. */
  predicate Truthy(s: Option<string>) {
    s.Some? && |s.value| > 0
  }
}

=== FILE: bump_version.dfy ===
/** The release script (`scripts/bump_version.py`): validate the new version,
    read the current one from pyproject.toml, rewrite both version sites by
    literal replace-all, and optionally tag (and push) the release. The file
    system is a map from path to content (a missing key is a missing file);
    git is an oracle giving the `git tag -l` output and whether tagging and
    pushing succeed. Printing and the process exit are reported as data. */
module BumpVersion {
  import opened Basics
  import opened Text
  import Client

  type Files = map<string, string>

  const PyprojectPath := "pyproject.toml"
  const ClientPath := "pytrilium/PyTriliumClient.py"

  /* ---------------- version format ---------------- */

  predicate IsDigit(c: char) {
    '0' <= c <= '9'
  }

  /** What `\d+` matches (ASCII digits only in this model). */
  predicate IsDigitRun(s: string) {
    |s| > 0 && forall i :: 0 <= i < |s| ==> IsDigit(s[i])
  }

  /** Python's `s.split(".")`. */
  function SplitDots(s: string): (parts: seq<string>)
    ensures |parts| > 0
    ensures forall k :: 0 <= k < |parts| ==> '.' !in parts[k]
    decreases |s|
  {
    var k := FirstIndexOf(s, '.');
    if k == |s| then [s] else [s[..k]] + SplitDots(s[k + 1..])
  }

  /** Python's `".".join(parts)`. */
  function JoinDots(parts: seq<string>): string
    requires |parts| > 0
  {
    if |parts| == 1 then parts[0] else parts[0] + "." + JoinDots(parts[1..])
  }

  lemma {:induction false} JoinSplit(s: string)
    ensures JoinDots(SplitDots(s)) == s
    decreases |s|
  {
    var k := FirstIndexOf(s, '.');
    if k < |s| {
      JoinSplit(s[k + 1..]);
      assert s == s[..k] + "." + s[k + 1..];
    }
  }

  lemma {:induction false} SplitJoin(parts: seq<string>)
    requires |parts| > 0
    requires forall k :: 0 <= k < |parts| ==> '.' !in parts[k]
    ensures SplitDots(JoinDots(parts)) == parts
    decreases |parts|
  {
    var s := JoinDots(parts);
    var k := FirstIndexOf(s, '.');
    if |parts| == 1 {
      assert k == |s|;
    } else {
      var head := parts[0];
      var tail := JoinDots(parts[1..]);
      assert s == head + "." + tail;
      assert k == |head| by {
        assert s[|head|] == '.';
      }
      assert s[..k] == head;
      assert s[k + 1..] == tail;
      SplitJoin(parts[1..]);
    }
  }

  /** Three non-empty digit runs joined by two dots. */
  predicate IsTriple(s: string) {
    var parts := SplitDots(s);
    |parts| == 3 && IsDigitRun(parts[0]) && IsDigitRun(parts[1]) && IsDigitRun(parts[2])
  }

  /** A triple of digit runs holds no quote and no backslash. */
  lemma TripleChars(t: string)
    requires IsTriple(t)
    ensures |t| > 0 && '"' !in t && '\\' !in t
  {
    var p := SplitDots(t);
    var a, b, c := p[0], p[1], p[2];
    JoinSplit(t);
    assert p[1..][1..] == p[2..] == [c];
    assert JoinDots(p[2..]) == c;
    assert JoinDots(p[1..]) == b + "." + c;
    assert t == a + "." + b + "." + c;
    forall i | 0 <= i < |t|
      ensures t[i] != '"' && t[i] != '\\'
    {
      if i < |a| {
        assert t[i] == a[i] && IsDigit(a[i]);
      } else if |a| < i < |a| + 1 + |b| {
        assert t[i] == b[i - |a| - 1] && IsDigit(b[i - |a| - 1]);
      } else if |a| + 1 + |b| < i {
        assert t[i] == c[i - |a| - |b| - 2] && IsDigit(c[i - |a| - |b| - 2]);
      }
    }
  }

  /** `re.match(r"^\d+\.\d+\.\d+$", s)`: Python's `$` also matches just
      before one final newline, so "1.3.2\n" is accepted. An accepted version
      is non-empty and holds no quote and no backslash. */
  function ValidVersion(s: string): (b: bool)
    ensures b ==> |s| > 0 && '"' !in s && '\\' !in s
  {
    if IsTriple(s) then
      TripleChars(s);
      true
    else if |s| > 0 && s[|s| - 1] == '\n' && IsTriple(s[..|s| - 1]) then
      TripleChars(s[..|s| - 1]);
      assert s == s[..|s| - 1] + "\n";
      true
    else
      false
  }

  /** Every `a.b.c` of digit runs is accepted, with or without a final newline. */
  lemma ValidVersionAccepts(a: string, b: string, c: string)
    requires IsDigitRun(a) && IsDigitRun(b) && IsDigitRun(c)
    ensures ValidVersion(a + "." + b + "." + c)
    ensures ValidVersion(a + "." + b + "." + c + "\n")
  {
    assert '.' !in a && '.' !in b && '.' !in c;
    var s := a + "." + b + "." + c;
    assert [a, b, c][1..] == [b, c] && [b, c][1..] == [c];
    assert JoinDots([b, c]) == b + "." + c;
    assert JoinDots([a, b, c]) == s;
    SplitJoin([a, b, c]);
    var t := s + "\n";
    assert t[..|t| - 1] == s;
  }

  /** The digit runs of an accepted version, without the final newline. */
  function VersionCore(s: string): string
    requires ValidVersion(s)
  {
    if IsTriple(s) then s else s[..|s| - 1]
  }

  /** Every accepted version is `a.b.c` of digit runs, perhaps followed by a
      newline. */
  lemma ValidVersionShape(s: string)
    requires ValidVersion(s)
    ensures var p := SplitDots(VersionCore(s));
            |p| == 3 && IsDigitRun(p[0]) && IsDigitRun(p[1]) && IsDigitRun(p[2])
            && VersionCore(s) == p[0] + "." + p[1] + "." + p[2]
            && (s == VersionCore(s) || s == VersionCore(s) + "\n")
  {
    var core := VersionCore(s);
    var p := SplitDots(core);
    JoinSplit(core);
    assert p[1..][1..] == p[2..] == [p[2]];
    assert JoinDots(p[2..]) == p[2];
    assert JoinDots(p[1..]) == p[1] + "." + p[2];
    if !IsTriple(s) {
      assert s == core + "\n";
    }
  }

  /** The format check accepts a plain version. */
  lemma VersionFormatAccepts()
    ensures ValidVersion("1.3.2")
  {
    ValidVersionAccepts("1", "3", "2");
    assert "1" + "." + "3" + "." + "2" == "1.3.2";
  }

  /** Through `$`, the check also accepts a version with a final newline. */
  lemma VersionFormatAcceptsNewline()
    ensures ValidVersion("10.0.7\n")
  {
    ValidVersionAccepts("10", "0", "7");
    assert "10" + "." + "0" + "." + "7" + "\n" == "10.0.7\n";
  }

  /** Two components are too few. */
  lemma VersionFormatRejectsShort()
    ensures !ValidVersion("1.3")
  {
    assert FirstIndexOf("1.3", '.') == 1;
    assert "1.3"[..1] == "1" && "1.3"[1 + 1..] == "3";
    assert SplitDots("3") == ["3"];
    assert SplitDots("1.3") == ["1", "3"];
  }

  /** A leading letter is not a digit. */
  lemma VersionFormatRejectsPrefix()
    ensures !ValidVersion("v1.3.2")
  {
    assert FirstIndexOf("v1.3.2", '.') == 2;
    assert "v1.3.2"[..2] == "v1";
    assert SplitDots("v1.3.2")[0] == "v1";
    assert !IsDigit('v');
  }

  /* ---------------- current version ---------------- */

  /** The text around `{old_version}` in a replacement pattern. */
  datatype Pattern = Pattern(before: string, after: string)

  function Instantiate(p: Pattern, version: string): string {
    p.before + version + p.after
  }

  lemma InstantiateInjective(p: Pattern, a: string, b: string)
    ensures a != b ==> Instantiate(p, a) != Instantiate(p, b)
  {
    if Instantiate(p, a) == Instantiate(p, b) {
      assert |a| == |b|;
      assert a == Instantiate(p, a)[|p.before|..|p.before| + |a|];
      assert b == Instantiate(p, b)[|p.before|..|p.before| + |b|];
    }
  }

  /** `version = "{old_version}"`: the pyproject.toml site. */
  const PyprojectPattern := Pattern("version = \"", "\"")
  /** `pytrilium/{old_version}`: the User-Agent site of the client module. */
  const UserAgentPattern := Pattern("pytrilium/", "")

  const VersionKey := PyprojectPattern.before

  /** `version = "([^"]+)"` matches at `i` with group `v`. */
  ghost predicate IsMatch(s: string, i: int, v: string) {
    |v| > 0 && '"' !in v && OccursAt(s, Instantiate(PyprojectPattern, v), i)
  }

  /** Length of the run of non-quote characters starting at `j`. */
  function NonQuoteRun(s: string, j: nat): (n: nat)
    requires j <= |s|
    ensures j + n <= |s|
    ensures forall t :: j <= t < j + n ==> s[t] != '"'
    ensures j + n == |s| || s[j + n] == '"'
    decreases |s| - j
  {
    if j == |s| || s[j] == '"' then 0 else 1 + NonQuoteRun(s, j + 1)
  }

  /** A match's group is exactly the maximal non-quote run after the key,
      and a quote follows it. */
  lemma MatchIsRun(s: string, i: int, v: string)
    requires IsMatch(s, i, v)
    ensures OccursAt(s, VersionKey, i)
    ensures |v| == NonQuoteRun(s, i + |VersionKey|)
    ensures i + |VersionKey| + |v| < |s|
  {
    var p := Instantiate(PyprojectPattern, v);
    var j := i + |VersionKey|;
    assert s[i..i + |VersionKey|] == s[i..i + |p|][..|VersionKey|];
    var n := NonQuoteRun(s, j);
    CharOfOccurrence(s, p, i, |VersionKey| + |v|);
    if n < |v| {
      CharOfOccurrence(s, p, i, |VersionKey| + n);
    }
  }

  lemma MatchUnique(s: string, i: int, v: string, w: string)
    requires IsMatch(s, i, v) && IsMatch(s, i, w)
    ensures v == w
  {
    MatchIsRun(s, i, v);
    MatchIsRun(s, i, w);
    var j := i + |VersionKey|;
    assert v == s[j..j + |v|] by {
      assert s[i..i + |Instantiate(PyprojectPattern, v)|][|VersionKey|..|VersionKey| + |v|] == v;
    }
    assert w == s[j..j + |w|] by {
      assert s[i..i + |Instantiate(PyprojectPattern, w)|][|VersionKey|..|VersionKey| + |w|] == w;
    }
  }

  /** The match at `i`, if the pattern matches there. */
  function MatchAt(s: string, i: nat): (r: Option<string>)
    requires i <= |s|
    ensures r.Some? ==> IsMatch(s, i, r.value)
    ensures r.None? ==> forall v :: !IsMatch(s, i, v)
  {
    var k := |VersionKey|;
    if !OccursAt(s, VersionKey, i) then
      assert forall v :: IsMatch(s, i, v) ==> OccursAt(s, VersionKey, i) by {
        forall v | IsMatch(s, i, v) { MatchIsRun(s, i, v); }
      }
      None
    else
      var n := NonQuoteRun(s, i + k);
      if n == 0 || i + k + n == |s| then
        assert forall v :: !IsMatch(s, i, v) by {
          forall v | IsMatch(s, i, v) ensures false { MatchIsRun(s, i, v); }
        }
        None
      else
        var v := s[i + k..i + k + n];
        assert '"' !in v by {
          forall t | 0 <= t < |v| ensures v[t] != '"' { assert v[t] == s[i + k + t]; }
        }
        assert s[i..i + k + n + 1] == VersionKey + v + "\"" by {
          assert s[i..i + k + n + 1] == s[i..i + k] + s[i + k..i + k + n] + s[i + k + n..i + k + n + 1];
        }
        Some(v)
  }

  datatype VersionMatch = VersionMatch(start: nat, version: string)

  /** `re.search` from position `i`: the leftmost match at or after `i`. */
  function FindVersionFrom(s: string, i: nat): (m: Option<VersionMatch>)
    requires i <= |s|
    ensures m.Some? ==> i <= m.value.start && IsMatch(s, m.value.start, m.value.version)
    ensures m.Some? ==> forall j, v :: i <= j < m.value.start ==> !IsMatch(s, j, v)
    ensures m.None? ==> forall j, v :: i <= j ==> !IsMatch(s, j, v)
    decreases |s| - i
  {
    var here := MatchAt(s, i);
    if here.Some? then Some(VersionMatch(i, here.value))
    else if i == |s| then
      assert forall j, v :: i <= j ==> !IsMatch(s, j, v) by {
        forall j, v | i < j && IsMatch(s, j, v) ensures false { MatchIsRun(s, j, v); }
      }
      None
    else
      FindVersionFrom(s, i + 1)
  }

  /** `re.search(r'version = "([^"]+)"', content)`. */
  function FindVersion(s: string): (m: Option<VersionMatch>)
    ensures m.Some? ==> IsMatch(s, m.value.start, m.value.version)
    ensures m.Some? ==> forall j, v :: 0 <= j < m.value.start ==> !IsMatch(s, j, v)
    ensures m.None? ==> forall j, v :: !IsMatch(s, j, v)
  {
    FindVersionFrom(s, 0)
  }

  /** The leftmost match is the one found. */
  lemma FindVersionIsLeftmost(s: string, i: nat, v: string)
    requires IsMatch(s, i, v)
    requires forall j, w :: 0 <= j < i ==> !IsMatch(s, j, w)
    ensures FindVersion(s) == Some(VersionMatch(i, v))
  {
    var m := FindVersion(s);
    assert m.Some?;
    assert m.value.start == i;
    MatchUnique(s, i, v, m.value.version);
  }

  /** Why the script stops with exit status 1. */
  datatype Stop = InvalidVersion | PyprojectMissing | VersionNotFound | SameVersion | NothingUpdated

  /** `get_current_version`: the group of the first match in pyproject.toml. */
  function GetCurrentVersion(files: Files): (r: Result<string, Stop>)
    ensures PyprojectPath !in files ==> r == Failure(PyprojectMissing)
    ensures r.Failure? && PyprojectPath in files ==>
              r.error == VersionNotFound && forall j, v :: !IsMatch(files[PyprojectPath], j, v)
    ensures r.Success? ==>
              PyprojectPath in files && |r.value| > 0 && '"' !in r.value
              && Contains(files[PyprojectPath], Instantiate(PyprojectPattern, r.value))
    // The version is the group of the leftmost match, as `re.search` finds it.
    ensures r.Success? ==>
              exists i :: IsMatch(files[PyprojectPath], i, r.value)
                          && forall j, w :: 0 <= j < i ==> !IsMatch(files[PyprojectPath], j, w)
  {
    if PyprojectPath !in files then Failure(PyprojectMissing)
    else
      match FindVersion(files[PyprojectPath])
      case None => Failure(VersionNotFound)
      case Some(m) => Success(m.version)
  }

  /* ---------------- rewriting the version sites ---------------- */

  /** The result of `update_version_in_file`: the files afterwards, and the
      returned flag. */
  datatype FileUpdate = FileUpdate(files: Files, changed: bool)

  /** `update_version_in_file`: a missing file is skipped; otherwise every
      occurrence of the pattern with the old version becomes the pattern with
      the new one, and the file is written back only if that changed it. */
  function UpdateVersionInFile(files: Files, path: string, oldVersion: string, newVersion: string,
                               pattern: Pattern): (u: FileUpdate)
    requires |pattern.before| > 0 && '\\' !in newVersion
    ensures u.files.Keys == files.Keys
    ensures forall f :: f in files && f != path ==> u.files[f] == files[f]
    ensures u.changed <==> path in files && u.files[path] != files[path]
    ensures u.changed ==>
              u.files[path] == ReplaceAll(files[path], Instantiate(pattern, oldVersion), Instantiate(pattern, newVersion))
    ensures oldVersion != newVersion ==>
              (u.changed <==> path in files && Contains(files[path], Instantiate(pattern, oldVersion)))
  {
    if path !in files then FileUpdate(files, false)
    else
      var content := files[path];
      var target := Instantiate(pattern, oldVersion);
      var replacement := Instantiate(pattern, newVersion);
      var updated := ReplaceAll(content, target, replacement);
      RewriteChangesIff(content, pattern, oldVersion, newVersion);
      if updated != content then FileUpdate(files[path := updated], true)
      else FileUpdate(files, false)
  }

  /** With distinct versions, the rewrite alters a text exactly when the
      pattern with the old version occurs in it. */
  lemma RewriteChangesIff(content: string, pattern: Pattern, oldVersion: string, newVersion: string)
    requires |pattern.before| > 0
    ensures oldVersion != newVersion ==>
              (ReplaceAll(content, Instantiate(pattern, oldVersion), Instantiate(pattern, newVersion)) != content
               <==> Contains(content, Instantiate(pattern, oldVersion)))
  {
    var target := Instantiate(pattern, oldVersion);
    var replacement := Instantiate(pattern, newVersion);
    if oldVersion != newVersion {
      InstantiateInjective(pattern, oldVersion, newVersion);
      ReplaceAllChangesIff(content, target, replacement);
    }
  }

  datatype BumpUpdate = BumpUpdate(files: Files, updated: seq<string>)

  /** `update_all_versions`: pyproject.toml first, then the client module;
      the list names exactly the files whose content changed, in that order. */
  function UpdateAllVersions(files: Files, oldVersion: string, newVersion: string): (b: BumpUpdate)
    requires '\\' !in newVersion
    ensures b.files.Keys == files.Keys
    ensures b.updated in {[], [PyprojectPath], [ClientPath], [PyprojectPath, ClientPath]}
    ensures forall f :: f in files ==> (b.files[f] != files[f] <==> f in b.updated)
    ensures oldVersion != newVersion ==>
              (PyprojectPath in b.updated <==>
                 PyprojectPath in files && Contains(files[PyprojectPath], Instantiate(PyprojectPattern, oldVersion)))
    ensures oldVersion != newVersion ==>
              (ClientPath in b.updated <==>
                 ClientPath in files && Contains(files[ClientPath], Instantiate(UserAgentPattern, oldVersion)))
    ensures PyprojectPath in b.updated ==>
              PyprojectPath in files && b.files[PyprojectPath] == ReplaceAll(files[PyprojectPath],
                                                   Instantiate(PyprojectPattern, oldVersion),
                                                   Instantiate(PyprojectPattern, newVersion))
    ensures ClientPath in b.updated ==>
              ClientPath in files && b.files[ClientPath] == ReplaceAll(files[ClientPath],
                                                Instantiate(UserAgentPattern, oldVersion),
                                                Instantiate(UserAgentPattern, newVersion))
  {
    var first := UpdateVersionInFile(files, PyprojectPath, oldVersion, newVersion, PyprojectPattern);
    var second := UpdateVersionInFile(first.files, ClientPath, oldVersion, newVersion, UserAgentPattern);
    var updated :=
      if first.changed && second.changed then [PyprojectPath, ClientPath]
      else if first.changed then [PyprojectPath]
      else if second.changed then [ClientPath]
      else [];
    BumpUpdate(second.files, updated)
  }

  /** An occurrence of `p + x` starts with an occurrence of `p`. */
  lemma ContainsPrefixOfPattern(s: string, p: string, x: string)
    ensures Contains(s, p + x) ==> Contains(s, p)
  {
    if Contains(s, p + x) {
      var i :| OccursAt(s, p + x, i);
      assert s[i..i + |p|] == s[i..i + |p + x|][..|p|];
      assert OccursAt(s, p, i);
    }
  }

  /** The client's User-Agent is "PyTriliumClient/0.0.1": it never holds the
      script's lower-case "pytrilium/". */
  lemma UserAgentLacksSite()
    ensures !Contains(Client.UserAgent, UserAgentPattern.before)
  {
    assert 'p' !in Client.UserAgent;
    AbsentFirstChar(Client.UserAgent, UserAgentPattern.before);
  }

  /** A client module that nowhere holds "pytrilium/" (the actual module
      writes its User-Agent as "PyTriliumClient/0.0.1") is never rewritten,
      whatever the versions: the files stay as they are and no change is
      reported. */
  lemma UserAgentNeverBumped(files: Files, oldVersion: string, newVersion: string)
    requires ClientPath in files ==> !Contains(files[ClientPath], UserAgentPattern.before)
    requires '\\' !in newVersion
    ensures ClientPath in files ==> !Contains(files[ClientPath], Instantiate(UserAgentPattern, oldVersion))
    ensures UpdateVersionInFile(files, ClientPath, oldVersion, newVersion, UserAgentPattern) == FileUpdate(files, false)
  {
    if ClientPath in files {
      var content := files[ClientPath];
      var target := Instantiate(UserAgentPattern, oldVersion);
      ContainsPrefixOfPattern(content, UserAgentPattern.before, oldVersion + UserAgentPattern.after);
      assert target == UserAgentPattern.before + (oldVersion + UserAgentPattern.after);
      ReplacementsPositiveIff(content, target);
      ReplaceAllNoop(content, target, Instantiate(UserAgentPattern, newVersion));
    }
  }

  /** If `t` agrees with `s` on the first `n` characters, an occurrence in `t`
      ending within them is one in `s`. */
  lemma OccursInCommonPrefix(s: string, t: string, n: int, x: string, j: int)
    requires 0 <= n <= |s| && n <= |t| && s[..n] == t[..n]
    requires OccursAt(t, x, j) && j + |x| <= n
    ensures OccursAt(s, x, j)
  {
    assert s[j..j + |x|] == s[..n][j..j + |x|];
    assert t[j..j + |x|] == t[..n][j..j + |x|];
  }

  /** Two texts that agree up to and including the quote ending the key at
      `i` have the same (absent) matches before `i`: a match starting before
      `i` would have to run through that quote. */
  lemma NoEarlierMatchKept(s: string, s': string, i: nat)
    requires i + |VersionKey| <= |s| && i + |VersionKey| <= |s'|
    requires s'[..i + |VersionKey|] == s[..i + |VersionKey|]
    requires s'[i + |VersionKey| - 1] == '"'
    requires forall j, v :: 0 <= j < i ==> !IsMatch(s, j, v)
    ensures forall j, v :: 0 <= j < i ==> !IsMatch(s', j, v)
  {
    var k := |VersionKey|;
    forall j, v | 0 <= j < i
      ensures !IsMatch(s', j, v)
    {
      if IsMatch(s', j, v) {
        var x := Instantiate(PyprojectPattern, v);
        if j + k + |v| > i + k - 1 {
          CharOfOccurrence(s', x, j, (i + k - 1) - j);
        }
        OccursInCommonPrefix(s, s', i + k, x, j);
        assert IsMatch(s, j, v);
        assert false;
      }
    }
  }

  /** After the pyproject.toml rewrite, reading the current version yields the
      new version, found where the old one was. */
  lemma {:induction false} RewriteThenRead(s: string, oldVersion: string, newVersion: string)
    requires FindVersion(s).Some? && FindVersion(s).value.version == oldVersion
    requires |newVersion| > 0 && '"' !in newVersion
    ensures var s' := ReplaceAll(s, Instantiate(PyprojectPattern, oldVersion), Instantiate(PyprojectPattern, newVersion));
            FindVersion(s') == Some(VersionMatch(FindVersion(s).value.start, newVersion))
  {
    var i := FindVersion(s).value.start;
    var p := Instantiate(PyprojectPattern, oldVersion);
    var r := Instantiate(PyprojectPattern, newVersion);
    var k := |VersionKey|;
    forall j | 0 <= j < i
      ensures !OccursAt(s, p, j)
    {
      assert !IsMatch(s, j, oldVersion);
    }
    ReplaceAllAtFirst(s, p, r, i);
    var s' := ReplaceAll(s, p, r);
    var tail := ReplaceAll(s[i + |p|..], p, r);
    assert s' == s[..i] + r + tail;
    assert s'[i..i + |r|] == r;
    assert IsMatch(s', i, newVersion);
    // s and s' agree up to the end of the key at i.
    assert s[i..i + k] == p[..k] by {
      assert s[i..i + |p|] == p;
    }
    assert s'[..i + k] == s[..i + k];
    assert s'[i + k - 1] == '"' by {
      CharOfOccurrence(s', r, i, k - 1);
    }
    NoEarlierMatchKept(s, s', i);
    FindVersionIsLeftmost(s', i, newVersion);
  }

  /* ---------------- git tag ---------------- */

  datatype GitCommand = ListTags(tag: string) | AnnotateTag(tag: string, message: string) | PushTag(tag: string)

  /** What git does: the `git tag -l` output, and whether the tag and push
      commands succeed. */
  datatype GitOracle = GitOracle(listed: string, tagSucceeds: bool, pushSucceeds: bool)

  datatype TagRun = TagRun(ok: bool, commands: seq<GitCommand>)

  function TagName(version: string): string {
    "v" + version
  }

  /** `create_git_tag`: list matching tags; stop if the name appears in the
      output; otherwise create the annotated tag and, if asked, push it. */
  function CreateGitTag(version: string, push: bool, git: GitOracle): (t: TagRun)
    ensures |t.commands| > 0 && t.commands[0] == ListTags(TagName(version))
    // List, then tag, then push: the commands run are a prefix of that order.
    ensures t.commands <= [ListTags(TagName(version)), AnnotateTag(TagName(version), "Release " + TagName(version)),
                           PushTag(TagName(version))]
    ensures forall c :: c in t.commands ==> c.tag == TagName(version)
    ensures Contains(git.listed, TagName(version)) ==> t == TagRun(false, [ListTags(TagName(version))])
    ensures (AnnotateTag(TagName(version), "Release " + TagName(version)) in t.commands)
              <==> !Contains(git.listed, TagName(version))
    ensures (PushTag(TagName(version)) in t.commands)
              <==> !Contains(git.listed, TagName(version)) && git.tagSucceeds && push
    ensures t.ok <==> !Contains(git.listed, TagName(version)) && git.tagSucceeds && (push ==> git.pushSucceeds)
  {
    var name := TagName(version);
    var list := ListTags(name);
    if Contains(git.listed, name) then TagRun(false, [list])
    else
      var tag := AnnotateTag(name, "Release " + name);
      if !git.tagSucceeds then TagRun(false, [list, tag])
      else if !push then TagRun(true, [list, tag])
      else TagRun(git.pushSucceeds, [list, tag, PushTag(name)])
  }

  /* ---------------- main ---------------- */

  datatype Args = Args(newVersion: string, createTag: bool, pushTag: bool, dryRun: bool)

  /** `--push-tag` implies `--create-tag`. */
  function EffectiveArgs(args: Args): (a: Args)
    ensures a.createTag <==> args.createTag || args.pushTag
    ensures a.pushTag == args.pushTag && a.dryRun == args.dryRun && a.newVersion == args.newVersion
  {
    if args.pushTag then args.(createTag := true) else args
  }

  /** How a run ends: exit 1 with a reason, a dry-run preview (what it says it
      would tag and push), or a completed bump from the old version. */
  datatype Status = Exited(reason: Stop) | Previewed(wouldTag: bool, wouldPush: bool) | Bumped(from: string)

  datatype Run = Run(status: Status, files: Files, updated: seq<string>, git: seq<GitCommand>)

  /** `main`. */
  function Main(args: Args, files: Files, git: GitOracle): (r: Run)
    ensures !ValidVersion(args.newVersion) ==> r.status == Exited(InvalidVersion)
    ensures r.status.Exited? ==> r.files == files && r.updated == [] && r.git == []
    ensures r.status.Previewed? ==>
              args.dryRun && r.files == files && r.updated == [] && r.git == []
              && r.status.wouldTag == (args.createTag || args.pushTag) && r.status.wouldPush == args.pushTag
    ensures r.status == Exited(SameVersion) <==>
              ValidVersion(args.newVersion) && GetCurrentVersion(files) == Success(args.newVersion)
    ensures r.status.Bumped? ==>
              !args.dryRun && ValidVersion(args.newVersion)
              && GetCurrentVersion(files) == Success(r.status.from) && r.status.from != args.newVersion
              && r.updated != [] && '\\' !in args.newVersion && r.files == UpdateAllVersions(files, r.status.from, args.newVersion).files
              && (r.git != [] <==> args.createTag || args.pushTag)
              && forall c :: c in r.git ==> c.tag == TagName(args.newVersion)
    // A completed bump reports exactly what the two update steps changed, and
    // runs exactly the tag step `create_git_tag(new, push_tag)` when a tag is asked.
    ensures r.status.Bumped? ==>
              '\\' !in args.newVersion
              && r.updated == UpdateAllVersions(files, r.status.from, args.newVersion).updated
              && r.git == (if args.createTag || args.pushTag then CreateGitTag(args.newVersion, args.pushTag, git).commands else [])
    // Each remaining outcome follows from the inputs.
    ensures ValidVersion(args.newVersion) && GetCurrentVersion(files).Failure? ==>
              r.status == Exited(GetCurrentVersion(files).error)
    ensures ValidVersion(args.newVersion) && GetCurrentVersion(files).Success?
            && GetCurrentVersion(files).value != args.newVersion ==>
              r.status == (if args.dryRun then Previewed(args.createTag || args.pushTag, args.pushTag)
                           else Bumped(GetCurrentVersion(files).value))
  {
    var a := EffectiveArgs(args);
    if !ValidVersion(a.newVersion) then Run(Exited(InvalidVersion), files, [], [])
    else
      match GetCurrentVersion(files)
      case Failure(stop) => Run(Exited(stop), files, [], [])
      case Success(current) =>
        if current == a.newVersion then Run(Exited(SameVersion), files, [], [])
        else if a.dryRun then Run(Previewed(a.createTag, a.pushTag), files, [], [])
        else
          var bump := UpdateAllVersions(files, current, a.newVersion);
          if bump.updated == [] then Run(Exited(NothingUpdated), files, [], [])
          else
            var commands := if a.createTag then CreateGitTag(a.newVersion, a.pushTag, git).commands else [];
            Run(Bumped(current), bump.files, bump.updated, commands)
  }

  /** The "No files were updated" exit cannot happen: the version was read
      from pyproject.toml, so its `version = "OLD"` is there to rewrite. */
  lemma NothingUpdatedUnreachable(args: Args, files: Files, git: GitOracle)
    ensures Main(args, files, git).status != Exited(NothingUpdated)
  {
    var a := EffectiveArgs(args);
    if ValidVersion(a.newVersion) {
      var current := GetCurrentVersion(files);
      if current.Success? && current.value != a.newVersion && !a.dryRun {
        assert PyprojectPath in UpdateAllVersions(files, current.value, a.newVersion).updated;
      }
    }
  }

  /** A run with a valid new version different from the current one, outside
      dry-run mode, completes the bump. It rewrites pyproject.toml and never
      the client module's User-Agent, and reading the version again gives the
      new one. */
  lemma {:induction false} BumpRoundTrip(args: Args, files: Files, git: GitOracle)
    requires ValidVersion(args.newVersion) && !args.dryRun
    requires GetCurrentVersion(files).Success? && GetCurrentVersion(files).value != args.newVersion
    requires ClientPath in files ==> !Contains(files[ClientPath], UserAgentPattern.before)
    ensures var r := Main(args, files, git);
            r.status == Bumped(GetCurrentVersion(files).value)
            && r.updated == [PyprojectPath] && GetCurrentVersion(r.files) == Success(args.newVersion)
  {
    var previous := GetCurrentVersion(files).value;
    var s := files[PyprojectPath];
    var first := UpdateVersionInFile(files, PyprojectPath, previous, args.newVersion, PyprojectPattern);
    UserAgentNeverBumped(first.files, previous, args.newVersion);
    var b := UpdateAllVersions(files, previous, args.newVersion);
    assert PyprojectPath in b.updated;
    assert ClientPath !in b.updated;
    assert FindVersion(s).Some? && FindVersion(s).value.version == previous;
    RewriteThenRead(s, previous, args.newVersion);
  }
}

=== FILE: client.dfy ===
/** The shared request layer of the ETAPI client (`PyTriliumClient`): base-URL
    normalisation, the request dispatcher with its status-code allow-list, and
    the start-up liveness probe. The HTTP transport is an oracle `Server` that
    maps each request to a reply; the retry policy lives inside that oracle. */
module Client {
  import opened Basics
  import opened Text

  /** The path segment every base URL must carry. */
  const EtapiSegment := "/etapi"

  /** Responses with these codes pass silently; any other is logged. */
  const ValidResponseCodes: seq<int> := [200, 201, 202, 204]

  /** Retry policy handed to the transport adapter (kept as data only). */
  const MaxRetries := 5
  const BackoffFactor := 1
  const RetryStatuses: seq<int> := [502, 503, 504]

  /** The fixed identifying header of every session. */
  const UserAgent := "PyTriliumClient/0.0.1"

  /** The endpoint the liveness probe calls. */
  const ProbeEndpoint := "/app-info"

  predicate IsValidStatus(status: int) {
    status in ValidResponseCodes
  }

  datatype Method = Get | Post | Put | Patch | Delete

  /** Request body: a raw string, or form fields (a Python dict passed as `data`). */
  datatype Body = Raw(text: string) | Form(fields: map<string, string>)

  /** `make_request`'s defaults: `data=""` and `params={}`. */
  const NoData := Raw("")
  const NoParams: map<string, string> := map[]

  /** The headers a session attaches to every request. */
  datatype Session = Session(userAgent: string, authorization: Option<string>)

  datatype Request = Request(verb: Method, url: string, data: Body, params: map<string, string>, headers: Session)

  /** A response: status, body text, and the decoded JSON object when the
      body is one (decoding itself is not modelled). */
  datatype Response = Response(status: int, text: string, json: Option<map<string, string>>)

  /** What the transport does with a request: answer it, or raise. */
  datatype Reply = Answered(response: Response) | Raised

  type Server = Request -> Reply

  /** One call of the dispatcher: what was sent, what came back, and whether a
      warning was logged about the status code. */
  datatype Exchange = Exchange(request: Request, reply: Reply, warned: bool)

  /** Ways constructing a client can fail. */
  datatype InitError =
    | AttributeMissing(name: string)     // Python AttributeError
    | InvalidUrl(attempted: string)      // ValueError from the URL check
    | MissingCredential                  // ValueError: neither token nor password
    | LoginReplyUnreadable               // login reply is not JSON or lacks "authToken"
    | ProbeRejected(status: int, text: string, allowed: seq<int>)  // ValueError from the probe
    | TransportFailure                   // an exception raised by the session

  /** What the base constructor stores. */
  datatype ClientState = ClientState(url: string, token: Option<string>)

  /** Appending "/etapi" cannot create or destroy an occurrence of "http":
      the suffix starts with '/' and holds no 'h'. */
  lemma AppendEtapiKeepsHttp(url: string)
    ensures Contains(url + EtapiSegment, "http") <==> Contains(url, "http")
  {
    var s := url + EtapiSegment;
    forall i | OccursAt(s, "http", i)
      ensures OccursAt(url, "http", i)
    {
      if i + 4 <= |url| {
        assert s[i..i + 4] == url[i..i + 4];
      } else if i <= |url| {
        CharOfOccurrence(s, "http", i, |url| - i);
        assert false;
      } else {
        CharOfOccurrence(s, "http", i, 0);
        assert false;
      }
    }
    forall i | OccursAt(url, "http", i)
      ensures OccursAt(s, "http", i)
    {
      assert s[i..i + 4] == url[i..i + 4];
    }
  }

  lemma HttpsContainsHttp(s: string)
    ensures Contains(s, "https") ==> Contains(s, "http")
  {
    if Contains(s, "https") {
      var i :| OccursAt(s, "https", i);
      assert s[i..i + 4] == s[i..i + 5][..4];
      assert OccursAt(s, "http", i);
    }
  }

  /** `clean_url`: append "/etapi" when it is absent, then accept only a URL
      mentioning "http" (the "https" test is subsumed). `None` is `False`. */
  function CleanUrl(url: string): (r: Option<string>)
    ensures r.Some? <==> Contains(url, "http")
    ensures r.Some? ==> url <= r.value && Contains(r.value, EtapiSegment)
    ensures r.Some? && !Contains(url, EtapiSegment) ==> r.value == url + EtapiSegment
    ensures r.Some? && Contains(url, EtapiSegment) ==> r.value == url
  {
    var candidate := if !Contains(url, EtapiSegment) then url + EtapiSegment else url;
    AppendEtapiKeepsHttp(url);
    HttpsContainsHttp(candidate);
    assert Contains(url + EtapiSegment, EtapiSegment) by {
      assert OccursAt(url + EtapiSegment, EtapiSegment, |url|);
    }
    if !Contains(candidate, "http") && !Contains(candidate, "https") then None
    else Some(candidate)
  }

  /** Cleaning an already cleaned URL changes nothing. */
  lemma CleanUrlIdempotent(url: string)
    requires CleanUrl(url).Some?
    ensures CleanUrl(CleanUrl(url).value) == CleanUrl(url)
  {
    var c := CleanUrl(url).value;
    assert url <= c;
    var i :| OccursAt(url, "http", i);
    assert c[i..i + 4] == url[i..i + 4];
    assert OccursAt(c, "http", i);
  }

  /** `PyTriliumClient.__init__` AS WRITTEN: on a rejected URL the error
      message reads `self.url`, which `clean_url` never assigned, so Python
      raises AttributeError instead of the intended ValueError. */
  function InitClientAsWritten(url: string, token: Option<string>): (r: Result<ClientState, InitError>)
    ensures r.Failure? <==> !Contains(url, "http")
    ensures r.Failure? ==> r.error == AttributeMissing("url")
    ensures r.Success? ==> r.value == ClientState(CleanUrl(url).value, token)
  {
    match CleanUrl(url)
    case None => Failure(AttributeMissing("url"))
    case Some(cleaned) => Success(ClientState(cleaned, token))
  }

  /** The exhibit: a URL without a scheme makes the constructor fail with an
      AttributeError, not with the documented ValueError. */
  lemma AsWrittenRaisesAttributeError()
    ensures InitClientAsWritten("trilium.local:8080", Some("tok")) == Failure(AttributeMissing("url"))
    ensures CleanUrl("trilium.local:8080").None?
  {
    AbsentFirstChar("trilium.local:8080", "http");
  }

  /** `PyTriliumClient.__init__` as intended: a rejected URL raises an
      invalid-URL error carrying the attempted input; an accepted URL is
      stored cleaned, with the token as given. */
  function InitClient(url: string, token: Option<string>): (r: Result<ClientState, InitError>)
    ensures r.Failure? <==> !Contains(url, "http")
    ensures r.Failure? ==> r.error == InvalidUrl(url)
    ensures r.Success? ==> url <= r.value.url && Contains(r.value.url, EtapiSegment)
    ensures r.Success? ==> r.value.token == token && CleanUrl(url) == Some(r.value.url)
  {
    match CleanUrl(url)
    case None => Failure(InvalidUrl(url))
    case Some(cleaned) => Success(ClientState(cleaned, token))
  }

  /** `make_requests_session`: the fixed User-Agent and the current token. */
  function MakeSession(token: Option<string>): (s: Session)
    ensures s.userAgent == UserAgent && s.authorization == token
  {
    Session(UserAgent, token)
  }

  /** `make_request`: the URL is base + endpoint with nothing inserted or
      removed, the session's headers go with the request, a warning is logged
      exactly when an answer has a status outside the allow-list, and the
      transport's reply is handed back whatever its status. */
  function MakeRequest(server: Server, session: Session, baseUrl: string, endpoint: string,
                       verb: Method, data: Body, params: map<string, string>): (x: Exchange)
    ensures baseUrl <= x.request.url && EndsWith(x.request.url, endpoint)
    ensures |x.request.url| == |baseUrl| + |endpoint|
    ensures x.request.verb == verb && x.request.data == data && x.request.params == params
    ensures x.request.headers == session
    ensures x.reply == server(x.request)
    ensures x.warned <==> x.reply.Answered? && !IsValidStatus(x.reply.response.status)
  {
    var request := Request(verb, baseUrl + endpoint, data, params, session);
    var reply := server(request);
    assert (baseUrl + endpoint)[|baseUrl|..] == endpoint;
    Exchange(request, reply, reply.Answered? && !IsValidStatus(reply.response.status))
  }

  /** The outcome of the liveness probe: the exchange and the error it raises, if any. */
  datatype Probe = Probe(exchange: Exchange, error: Option<InitError>)

  /** `attempt_basic_call`: GET "/app-info"; raise unless the status is allowed. */
  function AttemptBasicCall(server: Server, session: Session, baseUrl: string): (p: Probe)
    ensures p.exchange == MakeRequest(server, session, baseUrl, ProbeEndpoint, Get, NoData, NoParams)
    ensures p.error.None? <==> p.exchange.reply.Answered? && IsValidStatus(p.exchange.reply.response.status)
    ensures p.exchange.reply.Raised? ==> p.error == Some(TransportFailure)
    ensures p.exchange.reply.Answered? && !IsValidStatus(p.exchange.reply.response.status) ==>
              p.error == Some(ProbeRejected(p.exchange.reply.response.status, p.exchange.reply.response.text, ValidResponseCodes))
    ensures p.exchange.warned ==> p.error.Some?
  {
    var x := MakeRequest(server, session, baseUrl, ProbeEndpoint, Get, NoData, NoParams);
    match x.reply
    case Raised => Probe(x, Some(TransportFailure))
    case Answered(resp) =>
      if IsValidStatus(resp.status) then Probe(x, None)
      else Probe(x, Some(ProbeRejected(resp.status, resp.text, ValidResponseCodes)))
  }

  /** The codes the transport retries are never in the allow-list, so any
      502/503/504 answer that reaches the dispatcher is warned about. (When
      retries run out the transport usually raises instead; that is a
      `Raised` reply here.) */
  lemma RetriedStatusIsWarned(server: Server, session: Session, baseUrl: string, endpoint: string,
                              verb: Method, data: Body, params: map<string, string>)
    requires var x := MakeRequest(server, session, baseUrl, endpoint, verb, data, params);
             x.reply.Answered? && x.reply.response.status in RetryStatuses
    ensures MakeRequest(server, session, baseUrl, endpoint, verb, data, params).warned
  {
  }
}

=== FILE: note_client.dfy ===
/** The note operations of the ETAPI client (`PyTriliumNoteClient`): how each
    one forms its request, and the export operation, which normalises a target
    path, fetches the archive and writes it, turning every failure into `false`.
    The file system is an oracle saying whether a path can be written. */
module NoteClient {
  import opened Basics
  import opened Text
  import opened Client

  /** The export/revision format used when the caller gives none. */
  const DefaultFormat := "html"

  /** File name stem used when the export target is a directory. */
  const ExportFilePrefix := "pytrilium_export_"
  const ZipSuffix := ".zip"

  const NotesRoot := "/notes/"

  datatype NoteOp =
    | GetNote(id: string)
    | GetNoteContent(id: string)
    | PutNoteContent(id: string, content: string)
    | PatchNote(id: string, content: string)
    | DeleteNote(id: string)
    | ExportNote(id: string, format: string)
    | CreateRevision(id: string, content: string, format: string)

  /** The arguments one operation hands to `make_request`. */
  datatype Call = Call(verb: Method, endpoint: string, data: Body, params: map<string, string>)

  /** The request each note operation issues; the note id is pasted into the
      path as it is, without escaping. */
  function NoteCall(op: NoteOp): (c: Call)
    ensures NotesRoot + op.id <= c.endpoint
    ensures c.verb == Get <==> op.GetNote? || op.GetNoteContent? || op.ExportNote?
    ensures "format" in c.params <==> op.ExportNote? || op.CreateRevision?
    ensures "format" in c.params ==> c.params == map["format" := op.format]
    ensures c.endpoint == NotesRoot + op.id + SubResource(op)
    ensures c.verb == Put <==> op.PutNoteContent?
    ensures c.verb == Patch <==> op.PatchNote?
    ensures c.verb == Delete <==> op.DeleteNote?
    ensures c.verb == Post <==> op.CreateRevision?
    ensures op.PutNoteContent? || op.PatchNote? || op.CreateRevision? ==> c.data == Raw(op.content)
    ensures !(op.PutNoteContent? || op.PatchNote? || op.CreateRevision?) ==> c.data == NoData
    ensures "format" !in c.params ==> c.params == NoParams
  {
    var base := NotesRoot + op.id;
    match op
    case GetNote(_) => Call(Get, base, NoData, NoParams)
    case GetNoteContent(_) => Call(Get, base + "/content", NoData, NoParams)
    case PutNoteContent(_, content) => Call(Put, base + "/content", Raw(content), NoParams)
    case PatchNote(_, content) => Call(Patch, base, Raw(content), NoParams)
    case DeleteNote(_) => Call(Delete, base, NoData, NoParams)
    case ExportNote(_, format) => Call(Get, base + "/export", NoData, map["format" := format])
    case CreateRevision(_, content, format) => Call(Post, base + "/note-revision", Raw(content), map["format" := format])
  }

  /** Reads a note endpoint back: the note id and the sub-resource after it. */
  function ParseNoteEndpoint(endpoint: string): Option<(string, string)> {
    if NotesRoot <= endpoint then
      var rest := endpoint[|NotesRoot|..];
      var k := FirstIndexOf(rest, '/');
      Some((rest[..k], rest[k..]))
    else
      None
  }

  /** The sub-resource each operation addresses. */
  function SubResource(op: NoteOp): string {
    match op
    case GetNoteContent(_) => "/content"
    case PutNoteContent(_, _) => "/content"
    case ExportNote(_, _) => "/export"
    case CreateRevision(_, _, _) => "/note-revision"
    case _ => ""
  }

  /** For an id without '/', the endpoint gives back the id and the
      sub-resource it was built from. */
  lemma {:induction false} ParseNoteCall(op: NoteOp)
    requires '/' !in op.id
    ensures ParseNoteEndpoint(NoteCall(op).endpoint) == Some((op.id, SubResource(op)))
  {
    var e := NoteCall(op).endpoint;
    var suffix := SubResource(op);
    assert e == NotesRoot + op.id + suffix;
    var rest := e[|NotesRoot|..];
    assert rest == op.id + suffix;
    var k := FirstIndexOf(rest, '/');
    assert k == |op.id| by {
      if |op.id| < |rest| {
        assert rest[|op.id|] == '/';
      }
    }
    assert rest[..k] == op.id;
    assert rest[k..] == suffix;
  }

  /** Distinct note operations on ids without '/' send distinct requests. */
  lemma NoteCallInjective(a: NoteOp, b: NoteOp)
    requires '/' !in a.id && '/' !in b.id
    requires NoteCall(a) == NoteCall(b)
    ensures a == b
  {
    ParseNoteCall(a);
    ParseNoteCall(b);
  }

  /** Without escaping, an id holding '/' can address another operation's path. */
  lemma SlashInIdAliases()
    ensures NoteCall(GetNote("abc/content")) == NoteCall(GetNoteContent("abc"))
  {
  }

  /** The export target: a directory (trailing '/') gets a default file name,
      and ".zip" is appended unless already present. */
  function ExportPath(path: string, noteId: string): (r: string)
    ensures EndsWith(r, ZipSuffix)
    ensures path <= r
    ensures EndsWith(path, "/") ==> r == path + ExportFilePrefix + noteId + ZipSuffix
    ensures !EndsWith(path, "/") && EndsWith(path, ZipSuffix) ==> r == path
    ensures !EndsWith(path, "/") && !EndsWith(path, ZipSuffix) ==> r == path + ZipSuffix
  {
    var named := if EndsWith(path, "/") then path + ExportFilePrefix + noteId + ZipSuffix else path;
    var target := if EndsWith(named, ZipSuffix) then named else named + ZipSuffix;
    assert EndsWith(path + ExportFilePrefix + noteId + ZipSuffix, ZipSuffix);
    assert EndsWith(named + ZipSuffix, ZipSuffix);
    target
  }

  /** Normalising an already normalised path changes nothing, whatever note id
      is used the second time. */
  lemma ExportPathIdempotent(path: string, noteId: string, otherId: string)
    ensures ExportPath(ExportPath(path, noteId), otherId) == ExportPath(path, noteId)
  {
    var r := ExportPath(path, noteId);
    assert r[|r| - 1] == 'p';
    assert !EndsWith(r, "/");
  }

  /** A completed file write. */
  datatype Written = Written(path: string, content: string)

  /** The export outcome: the returned flag, the exchange, and the write. */
  datatype ExportRun = ExportRun(ok: bool, exchange: Exchange, written: Option<Written>)

  /** `export_note_by_id`: GET the export of the note, then write the body to
      the normalised path. A raised request or an unwritable path gives
      `false`; the status code is never consulted. */
  function Export(server: Server, session: Session, baseUrl: string, noteId: string,
                  path: string, format: string, canWrite: string -> bool): (e: ExportRun)
    ensures e.exchange == MakeRequest(server, session, baseUrl, NotesRoot + noteId + "/export", Get, NoData, map["format" := format])
    ensures e.ok <==> e.written.Some?
    ensures e.ok <==> e.exchange.reply.Answered? && canWrite(ExportPath(path, noteId))
    ensures e.written.Some? ==> e.written.value == Written(ExportPath(path, noteId), e.exchange.reply.response.text)
  {
    var target := ExportPath(path, noteId);
    var call := NoteCall(ExportNote(noteId, format));
    var x := MakeRequest(server, session, baseUrl, call.endpoint, call.verb, call.data, call.params);
    match x.reply
    case Raised => ExportRun(false, x, None)
    case Answered(resp) =>
      if canWrite(target) then ExportRun(true, x, Some(Written(target, resp.text)))
      else ExportRun(false, x, None)
  }

  /** A status outside the allow-list only causes a warning: the archive is
      still written and the export still reports success. */
  lemma ExportSucceedsDespiteBadStatus(server: Server, session: Session, baseUrl: string, noteId: string,
                                       path: string, format: string, canWrite: string -> bool)
    requires var x := MakeRequest(server, session, baseUrl, NotesRoot + noteId + "/export", Get, NoData, map["format" := format]);
             x.reply.Answered? && !IsValidStatus(x.reply.response.status)
    requires canWrite(ExportPath(path, noteId))
    ensures var e := Export(server, session, baseUrl, noteId, path, format, canWrite);
            e.ok && e.exchange.warned && e.written.Some?
  {
  }
}

=== FILE: text.dfy ===
/** String primitives the client and the release script are built from:
    Python's `p in s`, `s.endswith(t)` and a literal, left-to-right,
    non-overlapping replace-all (what `re.sub` does with an escaped pattern). */
module Text {

  /** `p` occurs in `s` starting at index `i`. */
  predicate OccursAt(s: string, p: string, i: int) {
    0 <= i && i + |p| <= |s| && s[i..i + |p|] == p
  }

  /** An occurrence of `p` at `i + 1` in `s` is an occurrence at `i` in `s[1..]`. */
  lemma ShiftOccurs(s: string, p: string)
    requires |s| > 0
    ensures forall i :: OccursAt(s[1..], p, i) ==> OccursAt(s, p, i + 1)
    ensures forall i :: 0 < i && OccursAt(s, p, i) ==> OccursAt(s[1..], p, i - 1)
  {
    forall i | OccursAt(s[1..], p, i)
      ensures OccursAt(s, p, i + 1)
    {
      assert s[i + 1..i + 1 + |p|] == s[1..][i..i + |p|];
    }
    forall i | 0 < i && OccursAt(s, p, i)
      ensures OccursAt(s[1..], p, i - 1)
    {
      assert s[1..][i - 1..i - 1 + |p|] == s[i..i + |p|];
    }
  }

  /** Python's `p in s`: the substring test, computed by scanning. */
  function Contains(s: string, p: string): (b: bool)
    ensures b <==> exists i :: OccursAt(s, p, i)
    decreases |s|
  {
    if p <= s then
      assert OccursAt(s, p, 0);
      true
    else if |s| == 0 then
      false
    else
      ShiftOccurs(s, p);
      Contains(s[1..], p)
  }

  /** A pattern whose first character never appears in `s` does not occur in it. */
  lemma AbsentFirstChar(s: string, p: string)
    requires |p| > 0 && p[0] !in s
    ensures !Contains(s, p)
  {
  }

  /** Each character of an occurrence matches the pattern. */
  lemma CharOfOccurrence(s: string, p: string, i: int, k: int)
    requires OccursAt(s, p, i) && 0 <= k < |p|
    ensures s[i + k] == p[k]
  {
    assert s[i..i + |p|][k] == s[i + k];
  }

  /** Index of the first `c` in `s`, or `|s|` when there is none. */
  function FirstIndexOf(s: string, c: char): (k: nat)
    ensures k <= |s|
    ensures forall j :: 0 <= j < k ==> s[j] != c
    ensures k < |s| ==> s[k] == c
  {
    if |s| == 0 then 0
    else if s[0] == c then 0
    else 1 + FirstIndexOf(s[1..], c)
  }

  /** Python's `s.endswith(suffix)`. */
  predicate EndsWith(s: string, suffix: string) {
    |suffix| <= |s| && s[|s| - |suffix|..] == suffix
  }

  /** The number of occurrences `ReplaceAll` rewrites: a left-to-right scan
      that skips past each occurrence it takes. */
  function Replacements(s: string, p: string): nat
    requires |p| > 0
    decreases |s|
  {
    if |s| == 0 then 0
    else if p <= s then 1 + Replacements(s[|p|..], p)
    else Replacements(s[1..], p)
  }

  /** Literal replace-all: every non-overlapping occurrence of `p`, taken
      leftmost first, becomes `r`. */
  function ReplaceAll(s: string, p: string, r: string): (t: string)
    requires |p| > 0
    ensures p == r ==> t == s
    decreases |s|
  {
    if |s| == 0 then s
    else if p <= s then
      assert p == r ==> s == r + s[|p|..];
      r + ReplaceAll(s[|p|..], p, r)
    else [s[0]] + ReplaceAll(s[1..], p, r)
  }

  /** Each rewrite changes the length by |r| - |p|. */
  lemma {:induction false} ReplaceAllLength(s: string, p: string, r: string)
    requires |p| > 0
    ensures |ReplaceAll(s, p, r)| == |s| + Replacements(s, p) * (|r| - |p|)
    decreases |s|
  {
    if |s| == 0 {
    } else if p <= s {
      var rest := s[|p|..];
      var k := Replacements(rest, p);
      var d := |r| - |p|;
      ReplaceAllLength(rest, p, r);
      assert |ReplaceAll(rest, p, r)| == |rest| + k * d;
      assert ReplaceAll(s, p, r) == r + ReplaceAll(rest, p, r);
      assert Replacements(s, p) == 1 + k;
      assert (1 + k) * d == d + k * d;
    } else {
      ReplaceAllLength(s[1..], p, r);
    }
  }

  /** The scan takes at least one occurrence exactly when there is one. */
  lemma {:induction false} ReplacementsPositiveIff(s: string, p: string)
    requires |p| > 0
    ensures Replacements(s, p) > 0 <==> Contains(s, p)
    decreases |s|
  {
    if |s| == 0 {
      assert !OccursAt(s, p, 0);
    } else if p <= s {
      assert OccursAt(s, p, 0);
    } else {
      ReplacementsPositiveIff(s[1..], p);
      ShiftOccurs(s, p);
    }
  }

  /** When the scan rewrites nothing, the text comes back unchanged. */
  lemma {:induction false} ReplaceAllNoop(s: string, p: string, r: string)
    requires |p| > 0 && Replacements(s, p) == 0
    ensures ReplaceAll(s, p, r) == s
    decreases |s|
  {
    if |s| > 0 {
      ReplaceAllNoop(s[1..], p, r);
    }
  }

  lemma NonZeroProduct(k: int, d: int)
    requires k >= 1 && d != 0
    ensures k * d != 0
  {
    if d > 0 {
      assert k * d >= d;
    } else {
      assert k * d <= d;
    }
  }

  /** Replacing `p` by a different `r` alters the text exactly when `p` occurs. */
  lemma {:induction false} ReplaceAllChangesIff(s: string, p: string, r: string)
    requires |p| > 0 && p != r
    ensures ReplaceAll(s, p, r) != s <==> Contains(s, p)
    decreases |s|
  {
    ReplacementsPositiveIff(s, p);
    if Replacements(s, p) == 0 {
      ReplaceAllNoop(s, p, r);
    } else if |r| != |p| {
      ReplaceAllLength(s, p, r);
      NonZeroProduct(Replacements(s, p), |r| - |p|);
    } else if p <= s {
      var t := ReplaceAll(s, p, r);
      assert t == r + ReplaceAll(s[|p|..], p, r);
      assert t[..|p|] == r;
      assert s[..|p|] == p;
    } else {
      ReplacementsPositiveIff(s[1..], p);
      ReplaceAllChangesIff(s[1..], p, r);
      assert ReplaceAll(s, p, r)[1..] == ReplaceAll(s[1..], p, r);
    }
  }

  /** Up to the first occurrence of `p` the text is copied unchanged, and that
      occurrence is the first one rewritten. */
  lemma {:induction false} ReplaceAllAtFirst(s: string, p: string, r: string, i: nat)
    requires |p| > 0
    requires OccursAt(s, p, i)
    requires forall j :: 0 <= j < i ==> !OccursAt(s, p, j)
    ensures ReplaceAll(s, p, r) == s[..i] + r + ReplaceAll(s[i + |p|..], p, r)
    decreases i
  {
    if i == 0 {
      assert p <= s;
    } else {
      assert !OccursAt(s, p, 0);
      ShiftOccurs(s, p);
      ReplaceAllAtFirst(s[1..], p, r, i - 1);
      assert s[1..][i - 1 + |p|..] == s[i + |p|..];
      assert [s[0]] + s[1..][..i - 1] == s[..i];
    }
  }
}

=== FILE: trilium.dfy ===
/** The composed client (`PyTrilium`): credential selection at construction
    (a token wins over a password, a password is exchanged for a token through
    the login endpoint), the liveness probe that follows, and the filter of
    `print_custom_functions`. `set_session_auth` is not part of this model: it
    is a parameter mapping a session and a credential to the new session. */
module Trilium {
  import opened Basics
  import opened Text
  import opened Client

  const LoginEndpoint := "/auth/login"
  const TokenField := "authToken"

  /** A constructed client: cleaned URL, final credential, and the session. */
  datatype Connected = Connected(url: string, token: string, session: Session)

  /** The outcome of the login exchange. */
  datatype Login = Login(exchange: Exchange, token: Result<string, InitError>)

  /** `auth_login`: POST the password as form data; the token is the
      "authToken" field of the JSON reply. A reply that is not JSON or lacks
      the field raises, as does the transport. */
  function AuthLogin(server: Server, session: Session, baseUrl: string, password: string): (l: Login)
    ensures l.exchange == MakeRequest(server, session, baseUrl, LoginEndpoint, Post, Form(map["password" := password]), NoParams)
    ensures l.token.Success? <==>
              l.exchange.reply.Answered? && l.exchange.reply.response.json.Some?
              && TokenField in l.exchange.reply.response.json.value
    ensures l.token.Success? ==> l.token.value == l.exchange.reply.response.json.value[TokenField]
    ensures l.exchange.reply.Raised? ==> l.token == Failure(TransportFailure)
    ensures l.exchange.reply.Answered? && l.token.Failure? ==> l.token.error == LoginReplyUnreadable
  {
    var x := MakeRequest(server, session, baseUrl, LoginEndpoint, Post, Form(map["password" := password]), NoParams);
    match x.reply
    case Raised => Login(x, Failure(TransportFailure))
    case Answered(resp) =>
      if resp.json.Some? && TokenField in resp.json.value then Login(x, Success(resp.json.value[TokenField]))
      else Login(x, Failure(LoginReplyUnreadable))
  }

  /** The outcome of construction: the client or the error raised, every
      exchange in order, and the credential handed to `set_session_auth`. */
  datatype Connection = Connection(result: Result<Connected, InitError>, sent: seq<Exchange>, authSet: Option<string>)

  /** `PyTrilium.__init__`: check the URL, build the session with the given
      token, insist on a token or a password, log in when a password is given,
      let a given token override the login's, install the credential, probe. */
  function Connect(server: Server, setSessionAuth: (Session, string) -> Session,
                   url: string, token: Option<string>, password: Option<string>): (c: Connection)
    // The URL is checked first; nothing is sent for a rejected URL.
    ensures !Contains(url, "http") ==> c == Connection(Failure(InvalidUrl(url)), [], None)
    // Neither credential: refused before any request.
    ensures Contains(url, "http") && !Truthy(token) && !Truthy(password) ==>
              c == Connection(Failure(MissingCredential), [], None)
    // A truthy token is the credential installed, password or not.
    ensures Truthy(token) && c.authSet.Some? ==> c.authSet == Some(token.value)
    // A password alone is exchanged for the reply's token.
    ensures !Truthy(token) && Truthy(password) && c.authSet.Some? ==>
              var login := AuthLogin(server, MakeSession(token), CleanUrl(url).value, password.value);
              |c.sent| == 2 && login.token.Success? && c.authSet == Some(login.token.value)
    // Once a credential is installed, the probe is the last exchange and
    // carries the session `set_session_auth` produced.
    ensures c.authSet.Some? ==>
              |c.sent| > 0 && c.sent[|c.sent| - 1] ==
                AttemptBasicCall(server, setSessionAuth(MakeSession(token), c.authSet.value), CleanUrl(url).value).exchange
    // A login is attempted exactly when a password is given.
    ensures Contains(url, "http") && Truthy(password) ==>
              |c.sent| > 0 && c.sent[0] == AuthLogin(server, MakeSession(token), CleanUrl(url).value, password.value).exchange
    ensures !Truthy(password) ==> |c.sent| <= 1
    // A token alone is installed as it is, and only the probe is sent.
    ensures Contains(url, "http") && Truthy(token) && !Truthy(password) ==>
              c.authSet == Some(token.value) && |c.sent| == 1
    // With a password the login decides: its failure aborts with nothing
    // installed; its success installs the given token if any, else its own.
    ensures Contains(url, "http") && Truthy(password) ==>
              var login := AuthLogin(server, MakeSession(token), CleanUrl(url).value, password.value);
              (login.token.Failure? ==> c == Connection(Failure(login.token.error), [login.exchange], None))
              && (login.token.Success? ==>
                    c.authSet == Some(if Truthy(token) then token.value else login.token.value) && |c.sent| == 2)
    // Once a credential is installed, the probe alone decides the outcome.
    ensures c.authSet.Some? ==>
              var probe := AttemptBasicCall(server, setSessionAuth(MakeSession(token), c.authSet.value), CleanUrl(url).value);
              (c.result.Success? <==> probe.error.None?)
              && (probe.error.Some? ==> c.result == Failure(probe.error.value))
    // Success means a credential was installed and the probe passed.
    ensures c.result.Success? ==>
              c.authSet == Some(c.result.value.token)
              && c.result.value.url == CleanUrl(url).value
              && c.result.value.session == setSessionAuth(MakeSession(token), c.result.value.token)
              && c.sent[|c.sent| - 1].reply.Answered?
              && IsValidStatus(c.sent[|c.sent| - 1].reply.response.status)
  {
    match InitClient(url, token)
    case Failure(e) => Connection(Failure(e), [], None)
    case Success(base) =>
      var session := MakeSession(base.token);
      if !Truthy(token) && !Truthy(password) then
        Connection(Failure(MissingCredential), [], None)
      else
        var login := if Truthy(password) then Some(AuthLogin(server, session, base.url, password.value)) else None;
        var before := if login.Some? then [login.value.exchange] else [];
        if login.Some? && login.value.token.Failure? then
          Connection(Failure(login.value.token.error), before, None)
        else
          var credential := if Truthy(token) then token.value else login.value.token.value;
          var authed := setSessionAuth(session, credential);
          var probe := AttemptBasicCall(server, authed, base.url);
          var sent := before + [probe.exchange];
          if probe.error.Some? then Connection(Failure(probe.error.value), sent, Some(credential))
          else Connection(Success(Connected(base.url, credential, authed)), sent, Some(credential))
  }

  /** With both a token and a password the login still runs first, so a
      failing login aborts construction although its token would be discarded. */
  lemma FailedLoginAbortsDespiteToken(server: Server, setSessionAuth: (Session, string) -> Session,
                                      url: string, token: string, password: string)
    requires Contains(url, "http") && |token| > 0 && |password| > 0
    requires server(Request(Post, CleanUrl(url).value + LoginEndpoint, Form(map["password" := password]), NoParams,
                            MakeSession(Some(token)))).Raised?
    ensures Connect(server, setSessionAuth, url, Some(token), Some(password)).result == Failure(TransportFailure)
  {
  }

  /** Names `print_custom_functions` never shows. */
  const HiddenNames: seq<string> := ["url", "token", "session"]

  predicate Shown(name: string) {
    !Contains(name, "__") && !Contains(name, "logger") && name !in HiddenNames
  }

  /** `xs` keeps some of the elements of `ys`, in their order. */
  ghost predicate SubsequenceOf(xs: seq<string>, ys: seq<string>)
    decreases |ys|
  {
    if |ys| == 0 then |xs| == 0
    else (|xs| > 0 && xs[0] == ys[0] && SubsequenceOf(xs[1..], ys[1..])) || SubsequenceOf(xs, ys[1..])
  }

  /** `print_custom_functions`: the names of `dir()`, in order, without dunder
      and logger names and without the hidden attributes. */
  function CustomFunctions(names: seq<string>): (shown: seq<string>)
    ensures forall n :: n in shown <==> n in names && Shown(n)
    ensures SubsequenceOf(shown, names)
    ensures |shown| <= |names|
    ensures |shown| == |names| <==> forall i :: 0 <= i < |names| ==> Shown(names[i])
  {
    if |names| == 0 then []
    else
      var rest := CustomFunctions(names[1..]);
      if Shown(names[0]) then
        [names[0]] + rest
      else
        rest
  }
}
